=== FILE: README.md ===
# Country data service of react-native-phone-input, in Dafny

This project models `services/CountryService.ts`, the data layer behind the
phone-number input's country picker. It covers these parts:

- **Loading.** The two-slot dataset cache `loadDataAsync` serves the bundled
  emoji table and the remote image table. Each slot is filled once and never
  invalidated.
- **Lookups.** The single-record lookups answer a country's name, first
  calling code or first currency.
- **The list.** The list pipeline `getCountriesAsync` builds the picker's
  list. It picks a base order of codes and drops codes missing from the table.
  It gives each record the name `name[translation] || name['common']`. It
  filters by region, subregion, include list and exclude list. It sorts by
  name unless preferred countries are given and the alpha filter is off.
- **Search.** The early-return branches of the search box, `search`.
- **Letters.** The jump-to-letter index, `getLetters`.

Things outside the file become inputs:

- the bundled table, `bundled`;
- the outcome of fetching the remote table, `remote`;
- the natural code order (`CountryCodeList`), `codeList`;
- `localeCompare`, a comparator `le`. `le(a, b)` stands for
  `a.localeCompare(b) <= 0` and is required to be a total preorder;
- `toLocaleUpperCase`, a function `upper`;
- the Fuse.js query, a function `fuzzy`.

The modules are:

- `Wrappers`: `undefined` (`Option`) and thrown errors (`Result`).
- `Seqs`: `Array.prototype.filter` and a stable sort (JavaScript's `sort`
  is stable since ES2019). Also `Array.from(new Set(...))` and their laws.
- `Dataset`: the raw table, the cache and `loadDataAsync`.
- `Lookups`: name resolution and the single-record lookups.
- `Pipeline`: `getCountriesAsync`, plus a one-pass reference definition
  `Select` of what its filter/map/filter chain computes.
- `Search` and `Letters`: `search` and `getLetters`.
- `Scenarios`: worked examples on a two-country table.

Points where the code may surprise a reader, and which the model keeps:

- **Alpha filter wins.** Preferred mode is
  `preferredCountries && !withAlphaFilter`. With `withAlphaFilter` set, a
  preferred list is ignored and the list is sorted.
- **Empty preferred list.** An empty preferred array is truthy in
  JavaScript. It selects preferred mode, so the list keeps the natural code
  order and is not sorted.
- **Empty names fall back too.** The list falls back to the "common" name
  when the translation is missing or empty (`||`). The single-record name
  lookup does not fall back at all (see Findings).
- **Falsy remote body.** A falsy remote body (JSON `null`) is stored, so
  the image slot stays empty and `getCountriesAsync` answers `[]`. A failed
  fetch leaves the cache unchanged and the error propagates.
- **Unknown code.** A lookup on a code absent from the table throws in the
  source. Here it is the error `UnknownCountryCode`.

## Model

| member | source | states |
|---|---|---|
| `Dataset.LoadData` | services/CountryService.ts:27-42 | a filled slot comes back as is, with no I/O and no change; an empty slot is filled from its source, and a fetched body, falsy or not, is what is stored and returned; the other slot is never touched; the value returned is what is now cached; only a FLAT load with an empty image slot and a failed fetch errs, with `DataUnavailable`, and then nothing changes; an emoji load always yields a table |
| `Dataset.LoadImage` | services/CountryService.ts:29-35 | the image slot is fetched only when empty; a failed fetch propagates and leaves the cache unchanged; a fetched body, falsy or not, is stored and returned |
| `Dataset.LoadEmoji` | services/CountryService.ts:36-40 | the emoji slot is filled from the bundled table only when empty; the image slot is untouched; a table always comes back |
| `Dataset.LoadKeepsWellFormed` | services/CountryService.ts:27-42 | loading from sources whose names all have a "common" entry keeps every cached table that way |
| `Dataset.SecondLoadHitsCache` | services/CountryService.ts:27-42 | once a load has produced a table, a second load of the same flag type returns that table with no I/O, whatever the sources now say |
| `Dataset.FilledSlotPersists` | services/CountryService.ts:30-40 | over any run of loads, a filled slot is never replaced or emptied (no invalidation) |
| `Dataset.OtherSlotUntouched` | services/CountryService.ts:28-41 | a run of loads of one flag type leaves the other slot as it found it |
| `Dataset.ImageLoadedOnce` | services/CountryService.ts:29-35 | from an empty image slot, a FLAT load that fetches a table stores and returns it, and after any later loads the image slot still holds exactly that table |
| `Dataset.EmojiLoadedOnce` | services/CountryService.ts:36-40 | from an empty cache the first emoji load reads the bundled table, and after any later loads the emoji slot still holds exactly that table |
| `Lookups.ResolveName` | services/CountryService.ts:129-131 | the resolved name is one of the record's names: the translation's when that one is present and non-empty, the "common" one otherwise; it is empty only when "common" is |
| `Lookups.CountryName` | services/CountryService.ts:60-71 | an unknown code errs; otherwise the answer is defined exactly when the record has the translation, and is then that translation, with no fallback; the emoji slot is loaded |
| `Lookups.CountryCallingCode` | services/CountryService.ts:73-79 | an unknown code errs; otherwise the answer is defined exactly when the record lists a calling code, and is then the first one |
| `Lookups.CountryCurrency` | services/CountryService.ts:81-87 | an unknown code errs; otherwise the answer is defined exactly when the record lists a currency, and is then the first one |
| `Lookups.NameLookupHasNoFallback` | services/CountryService.ts:68-70 | for a translation the record lacks, the name lookup answers `undefined` while the list resolves the same record to its "common" name |
| `Lookups.CountryNameWithFallback` | services/CountryService.ts:68-70 | corrected lookup: an unknown code errs; otherwise it answers one of the record's names, the "common" one when the translation is missing |
| `Lookups.FallbackRefinesLookup` | services/CountryService.ts:68-70 | the corrected lookup errs exactly when the lookup as written does; it agrees with it on every non-empty answer and gives "common" wherever the lookup as written answers `undefined` or "" |
| `Pipeline.Build` | services/CountryService.ts:126-134 | a list record carries the code it was built from and its resolved name: the translation, or the "common" name when the translation is missing or empty; region, subregion, calling codes, currencies and flag are copied from the raw record |
| `Pipeline.Attach` | services/CountryService.ts:124-134 | the `.map` step yields one record per code, position by position |
| `Pipeline.BaseOrder` | services/CountryService.ts:119-122 | the preferred base order holds exactly the preferred codes and the natural-order codes |
| `Pipeline.ByNameIsTotalPreorder` | services/CountryService.ts:156-158 | comparing records by their names with a total preorder is a total preorder on records |
| `Pipeline.GetCountries` | services/CountryService.ts:103-162 | the cache moves as the load moves it; the call errs exactly when the load errs, and then with the load's own error; a falsy table gives `[]`; a table gives the pipeline's list |
| `Pipeline.ChainIsSelect` | services/CountryService.ts:124-138 | the source's chain (drop absent codes, map, four filters) equals the one-pass reference selection |
| `Pipeline.SelectSound` | services/CountryService.ts:142-155 | every selected record comes from a listed code present in the table, is the record built from it, and passes all four filters |
| `Pipeline.SelectComplete` | services/CountryService.ts:142-155 | every listed code present in the table whose record passes all four filters is selected |
| `Pipeline.SelectIsSubsequence` | services/CountryService.ts:142-155 | the selected codes keep the order of the input codes |
| `Pipeline.SelectAppend` | services/CountryService.ts:119-138 | selecting from a concatenation is concatenating the selections |
| `Pipeline.CountriesSound` | services/CountryService.ts:89-101 | every listed record is in the table and in the base order, carries its resolved name, and passes all four filters |
| `Pipeline.CountriesComplete` | services/CountryService.ts:118-158 | a base-order code present in the table whose record passes all four filters is listed: absent codes are the only ones dropped silently |
| `Pipeline.PreferredOrder` | services/CountryService.ts:118-140 | in preferred mode the list is the selection from the preferred codes in the caller's order, then the selection from the remaining natural-order codes, unsorted; its codes keep the base order |
| `Pipeline.EmptyPreferredKeepsNaturalOrder` | services/CountryService.ts:118-122 | an empty preferred array still selects preferred mode: the list is the selection in natural code order |
| `Pipeline.AlphabeticalOrder` | services/CountryService.ts:141-158 | outside preferred mode the list is sorted by name, is a permutation of the selection in natural order, and records whose names compare equal keep their natural order |
| `Pipeline.AlphabeticalIsFixedPoint` | services/CountryService.ts:156-158 | sorting the alphabetical list again changes nothing |
| `Pipeline.IncludedFilter` | services/CountryService.ts:97-98 | an absent or empty include list keeps everything; a non-empty one keeps exactly the records it names |
| `Pipeline.ExcludedFilter` | services/CountryService.ts:100-101 | an absent or empty exclude list keeps everything; a non-empty one removes exactly the records it names |
| `Pipeline.RegionFilters` | services/CountryService.ts:92-95 | a falsy region or subregion keeps everything; a given one keeps exactly the records classified under it |
| `Seqs.Filter` | services/CountryService.ts:135-138 | `filter` keeps exactly the elements satisfying the predicate and never lengthens the list |
| `Seqs.FilterAppend` | services/CountryService.ts:135-138 | filtering a concatenation is concatenating the filtered parts |
| `Seqs.FilterIsSubsequence` | services/CountryService.ts:135-138 | filtering keeps the surviving elements in their order |
| `Seqs.Sort` | services/CountryService.ts:156-158 | the sorted list is sorted by the comparator and is a permutation of its input |
| `Seqs.SortStable` | services/CountryService.ts:156-158 | elements that compare equal keep their relative input order |
| `Seqs.SortOfSorted` | services/CountryService.ts:156-158 | sorting an already sorted list returns it unchanged |
| `Seqs.SortIdempotent` | services/CountryService.ts:156-158 | sorting an already sorted result again changes nothing |
| `Seqs.Uniq` | services/CountryService.ts:194 | the result has no repeats and holds exactly the input's elements |
| `Seqs.UniqFirstOccurrence` | services/CountryService.ts:194 | the kept values appear in the order of their first occurrences: of two kept values, the earlier one occurs in the input before the later one appears at all |
| `Seqs.UniqOfDistinct` | services/CountryService.ts:194 | a list without repeats comes back unchanged |
| `Seqs.UniqSorted` | services/CountryService.ts:194-202 | removing repeats from a sorted list keeps it sorted |
| `Letters.Initial` | services/CountryService.ts:199 | `substr(0, 1)` is the one-character prefix of a name, or "" for an empty name (characters as Unicode scalar values, see Left out) |
| `Letters.GetLetters` | services/CountryService.ts:196-202 | the letters are sorted, have no repeats, and are exactly the upper-cased initials of the listed names |
| `Letters.LettersDependOnNamesOnly` | services/CountryService.ts:196-202 | two lists with the same names in the same order give the same letters |
| `Search.Search` | services/CountryService.ts:173-192 | an empty list gives `[]` whatever the filter; an empty filter gives the list unchanged; otherwise the answer is the fuzzy query over the list just given |
| `Scenarios.RegionExample` | services/CountryService.ts:142-158 | with region "Europe", a France/United States table lists France only |
| `Scenarios.PreferredExample` | services/CountryService.ts:118-140 | preferred ["US"] puts the United States before France, unsorted |
| `Scenarios.AlphaFilterBeatsPreferredExample` | services/CountryService.ts:118 | with the alpha filter set, the preferred list is ignored and the list is sorted by name |
| `Scenarios.TranslationFallbackExample` | services/CountryService.ts:146-148 | a translation whose value is empty falls back to the "common" name in the list |
| `Scenarios.LookupWithoutFallbackExample` | services/CountryService.ts:68-70 | the name lookup answers an empty translation as stored and a missing one as `undefined` |
| `Scenarios.SearchExample` | services/CountryService.ts:186-191 | an empty filter returns the list and an empty list returns `[]` |

## Left out

- Fuse.js matching: scoring, the keys `name`, `cca2` and `callingCode`, and the threshold 0.3 are inside the input `fuzzy`.
- The module-level `fuse` index is not modelled as state. Its options are read only when the index is built, on the first non-empty call (services/CountryService.ts:181-182). Every later call with a non-empty list only replaces the collection with `setCollection` (line 184) and keeps the first call's options, so a later call's `options` argument is ignored. `fuzzy` stands for the query under the options of that first call. The one caller, components/CountryBottomSheet.tsx:154, passes no options, so there these are the defaults.
- Search.Search: says nothing about the content of a fuzzy answer, only that the query runs over the list just given. This is because Fuse.js is not part of this model.
- File and network I/O: `require` of the bundled table, `fetch` and `response.json()`. They are inputs. A network or parse failure is the single `FetchFailed` outcome.
- Concurrency: two overlapping first loads of the same slot can both fetch. Each load is modelled as atomic, one after another.
- `localeCompare` and `toLocaleUpperCase` are inputs. `localeCompare` is assumed to be a total preorder. No locale collation or case mapping is modelled.
- `CountryCodeList` (types/type) is not part of this model. It is the input `codeList`.
- The raw name is modelled as a map from language codes to strings. The source's type also admits a plain-string name.
- `WellFormed`: the pipeline requires every raw name to have a "common" entry, as the translation map type promises. A record without one would get an `undefined` name in the source.
- The `if (!countries) throw` checks in the three modelled lookups can never fire: an emoji load always yields a table. They are left out.
- `getEmojiFlagAsync` and `getImageFlagAsync` are left out. `getEmojiFlagAsync` reads the emoji slot like the modelled lookups. `getImageFlagAsync` reads the image slot, and its guard (services/CountryService.ts:54-56) does throw after a falsy remote body.
- `getCountryInfoAsync` is left out: it only chains the three modelled lookups.
- The React components (picker, filter, list item, phone input) are left out.
- Letters.Initial: strings are sequences of Unicode scalar values, not UTF-16 code units. `substr(0, 1)` takes the first code unit, so for a name starting outside the Basic Multilingual Plane (a flag emoji, say) JavaScript gives a lone high surrogate where the model gives the whole character.
- Integer widths do not arise: the service does no arithmetic.

## Findings

| source | as written | input that shows it | evidently intended | confidence | as-written member | corrected member |
|---|---|---|---|---|---|---|
| services/CountryService.ts:68-70 | the condition tests the name object, which is always truthy, so the `['common']` branch is dead and the lookup answers `name[translation]` as is | a record whose names are `{common: "United States"}`, looked up with translation "deu": the answer is `undefined`, where the list shows "United States" (`Lookups.NameLookupHasNoFallback`, `Scenarios.LookupWithoutFallbackExample`) | fall back to the "common" name when the translation is missing or empty, as the list pipeline does (`Lookups.FallbackRefinesLookup`) | medium, not executed | `Lookups.CountryName` | `Lookups.CountryNameWithFallback` |

=== FILE: dataset.dfy ===
/** The country reference table and its two lazily filled cache slots
    (`loadDataAsync` in services/CountryService.ts).

    The bundled emoji table (`require('../assets/countries-emoji.json')`) and
    the remote image table (`fetch(imageJsonUrl)` then `response.json()`) are
    inputs: `bundled` and `remote`. */
module Dataset {
  import opened Wrappers

  /** A two-letter country code such as "FR". */
  type Code = string

  /** One record of the raw table. `name` maps a translation language code
      ("common", "fra", ...) to a display name. */
  datatype Country = Country(
    name: map<string, string>,
    region: Option<string>,
    subregion: Option<string>,
    callingCode: seq<string>,
    currency: seq<string>,
    flag: string)

  type Table = map<Code, Country>

  /** Every name mapping carries the "common" entry that the translation
      map type promises. */
  predicate WellFormed(t: Table) {
    forall c :: c in t ==> "common" in t[c].name
  }

  /** `FlagType.EMOJI` (the default) or `FlagType.FLAT`. */
  datatype FlagType = Emoji | Flat

  datatype Error = DataUnavailable | UnknownCountryCode

  /** The module-level `localData`: one slot per flag type. `None` stands for
      a falsy slot (`undefined`, or `null` from a remote body). */
  datatype Cache = Cache(emoji: Option<Table>, image: Option<Table>)

  const EmptyCache: Cache := Cache(None, None)

  /** What `fetch` followed by `response.json()` yields: a rejected promise,
      or a parsed body that is either a table or a falsy JSON value. */
  datatype Response = FetchFailed | Body(json: Option<Table>)

  /** The result of one load: the new cache, the value handed back (or the
      error thrown), and whether the bundled file or the network was read. */
  datatype Load = Load(cache: Cache, data: Result<Option<Table>, Error>, io: bool)

  /** The reply of an operation that loads through the cache. */
  datatype Answer<T> = Answer(cache: Cache, result: Result<T, Error>)

  function Slot(c: Cache, t: FlagType): Option<Table> {
    match t
    case Emoji => c.emoji
    case Flat => c.image
  }

  function Other(t: FlagType): FlagType {
    match t
    case Emoji => Flat
    case Flat => Emoji
  }

  predicate CacheWellFormed(c: Cache) {
    && (c.emoji.Some? ==> WellFormed(c.emoji.value))
    && (c.image.Some? ==> WellFormed(c.image.value))
  }

  predicate ResponseWellFormed(r: Response) {
    r.Body? && r.json.Some? ==> WellFormed(r.json.value)
  }

  /** The `default:` branch: fill the emoji slot from the bundled table once. */
  function LoadEmoji(c: Cache, bundled: Table): (r: Load)
    ensures r.cache.image == c.image
    ensures r.cache.emoji.Some? && r.data == Ok(r.cache.emoji)
    ensures c.emoji.Some? ==> r == Load(c, Ok(c.emoji), false)
    ensures c.emoji.None? ==> r.io && r.cache.emoji == Some(bundled)
  {
    if c.emoji.Some? then Load(c, Ok(c.emoji), false)
    else Load(c.(emoji := Some(bundled)), Ok(Some(bundled)), true)
  }

  /** The `FlagType.FLAT` branch: fetch the image table when the slot is
      falsy. A failed fetch or parse propagates and leaves the cache as it
      was; a falsy body is stored and handed back, so the slot stays falsy. */
  function LoadImage(c: Cache, remote: Response): (r: Load)
    ensures r.cache.emoji == c.emoji
    ensures c.image.Some? ==> r == Load(c, Ok(c.image), false)
    ensures c.image.None? ==> r.io
    ensures r.data.Err? <==> c.image.None? && remote.FetchFailed?
    ensures r.data.Err? ==> r.cache == c && r.data.error == DataUnavailable
    ensures r.data.Ok? ==> r.data.value == r.cache.image
    ensures c.image.None? && remote.Body? ==>
              r.cache.image == remote.json && r.data == Ok(remote.json)
  {
    if c.image.Some? then Load(c, Ok(c.image), false)
    else match remote
      case FetchFailed => Load(c, Err(DataUnavailable), true)
      case Body(json) => Load(c.(image := json), Ok(json), true)
  }

  /** `loadDataAsync(data)(dataType)`. */
  function LoadData(c: Cache, t: FlagType, bundled: Table, remote: Response): (r: Load)
    // a filled slot is handed back as is, with no I/O and no change
    ensures Slot(c, t).Some? ==> r == Load(c, Ok(Slot(c, t)), false)
    // an empty slot is filled from its source
    ensures Slot(c, t).None? ==> r.io
    // the other slot is never touched
    ensures Slot(r.cache, Other(t)) == Slot(c, Other(t))
    // what comes back is exactly what is now cached
    ensures r.data.Ok? ==> r.data.value == Slot(r.cache, t)
    // only a remote fetch can fail, and a failure changes nothing
    ensures r.data.Err? <==> t == Flat && c.image.None? && remote.FetchFailed?
    ensures r.data.Err? ==> r.cache == c && r.data.error == DataUnavailable
    // the bundled table is always at hand
    ensures t == Emoji ==> r.data == Ok(Some(bundled)) || r.data == Ok(c.emoji)
    ensures t == Emoji ==> r.data.Ok? && r.data.value.Some?
    // a fetched body, falsy or not, is what is stored and returned
    ensures t == Flat && c.image.None? && remote.Body? ==>
              r.cache.image == remote.json && r.data == Ok(remote.json)
  {
    match t
    case Flat => LoadImage(c, remote)
    case Emoji => LoadEmoji(c, bundled)
  }

  /** Loading keeps the cache well formed when its sources are. */
  lemma LoadKeepsWellFormed(c: Cache, t: FlagType, bundled: Table, remote: Response)
    requires CacheWellFormed(c) && WellFormed(bundled) && ResponseWellFormed(remote)
    ensures CacheWellFormed(LoadData(c, t, bundled, remote).cache)
    ensures var r := LoadData(c, t, bundled, remote);
            r.data.Ok? && r.data.value.Some? ==> WellFormed(r.data.value.value)
  {
  }

  /** Once a load has produced a table, every later load of the same flag
      type returns that same table with no I/O, whatever the sources say. */
  lemma SecondLoadHitsCache(c: Cache, t: FlagType, bundled: Table, remote: Response,
                            bundled': Table, remote': Response)
    requires LoadData(c, t, bundled, remote).data.Ok?
    requires LoadData(c, t, bundled, remote).data.value.Some?
    ensures var first := LoadData(c, t, bundled, remote);
            LoadData(first.cache, t, bundled', remote') == Load(first.cache, first.data, false)
  {
  }

  /** One call of `loadDataAsync` with the sources it would see. */
  datatype Request = Request(flag: FlagType, bundled: Table, remote: Response)

  /** The cache after a sequence of loads, one after another. */
  function Run(c: Cache, rs: seq<Request>): Cache
    decreases |rs|
  {
    if |rs| == 0 then c
    else Run(LoadData(c, rs[0].flag, rs[0].bundled, rs[0].remote).cache, rs[1..])
  }

  /** A filled slot is never replaced or emptied: no invalidation. */
  lemma {:induction false} FilledSlotPersists(c: Cache, rs: seq<Request>, t: FlagType)
    requires Slot(c, t).Some?
    ensures Slot(Run(c, rs), t) == Slot(c, t)
    decreases |rs|
  {
    if |rs| > 0 {
      var next := LoadData(c, rs[0].flag, rs[0].bundled, rs[0].remote).cache;
      assert Slot(next, t) == Slot(c, t);
      FilledSlotPersists(next, rs[1..], t);
    }
  }

  /** A run of loads that only asks for one flag type leaves the other
      slot as it found it. */
  lemma {:induction false} OtherSlotUntouched(c: Cache, rs: seq<Request>, t: FlagType)
    requires forall i :: 0 <= i < |rs| ==> rs[i].flag == t
    ensures Slot(Run(c, rs), Other(t)) == Slot(c, Other(t))
    decreases |rs|
  {
    if |rs| > 0 {
      var next := LoadData(c, rs[0].flag, rs[0].bundled, rs[0].remote).cache;
      OtherSlotUntouched(next, rs[1..], t);
    }
  }

  /** From an empty cache, a single emoji load fills the emoji slot with the
      bundled table; every later emoji load returns it without I/O. */
  lemma {:induction false} EmojiLoadedOnce(bundled: Table, rs: seq<Request>)
    ensures var first := LoadData(EmptyCache, Emoji, bundled, FetchFailed);
            && first.io
            && Run(first.cache, rs).emoji == Some(bundled)
  {
    var first := LoadData(EmptyCache, Emoji, bundled, FetchFailed);
    FilledSlotPersists(first.cache, rs, Emoji);
  }

  /** From an empty image slot, a FLAT load that fetches a table stores it;
      every later load of any kind leaves that table in place. */
  lemma {:induction false} ImageLoadedOnce(c: Cache, table: Table, rs: seq<Request>)
    requires c.image.None?
    ensures var first := LoadData(c, Flat, map[], Body(Some(table)));
            && first.io
            && first.data == Ok(Some(table))
            && Run(first.cache, rs).image == Some(table)
  {
    var first := LoadData(c, Flat, map[], Body(Some(table)));
    FilledSlotPersists(first.cache, rs, Flat);
  }
}

=== FILE: letters.dfy ===
/** `getLetters`: the jump-to-letter index of a produced list. Upper-casing
    (`toLocaleUpperCase`) is the input `upper`; `localeCompare` is the
    comparator `le`, with `le(a, b)` standing for `a.localeCompare(b) <= 0`. */
module Letters {
  import opened Seqs
  import opened Pipeline

  /** `name.substr(0, 1)`: the first character, or "" for an empty name.
      A character here is a Unicode scalar value; JavaScript counts UTF-16
      code units, so the two differ on names starting outside the BMP. */
  function Initial(name: string): (r: string)
    ensures |r| == if |name| > 0 then 1 else 0
    ensures r == name[..|r|]
  {
    if |name| > 0 then name[..1] else ""
  }

  /** The `.map` step: each record's upper-cased initial, in list order. */
  function Initials(upper: string -> string, es: seq<Entry>): (r: seq<string>)
    ensures |r| == |es|
    ensures forall i :: 0 <= i < |es| ==> r[i] == upper(Initial(es[i].name))
  {
    seq(|es|, i requires 0 <= i < |es| => upper(Initial(es[i].name)))
  }

  /** `uniq(initials.sort(localeCompare))`. */
  function GetLetters(le: (string, string) -> bool, upper: string -> string, es: seq<Entry>)
    : (r: seq<string>)
    requires TotalPreorder(le)
    ensures Sorted(le, r)
    ensures NoDuplicates(r)
    ensures forall l :: l in r <==> exists e :: e in es && l == upper(Initial(e.name))
  {
    var initials := Initials(upper, es);
    var sorted := Sort(le, initials);
    UniqSorted(le, sorted);
    assert forall l :: l in sorted <==> l in initials by {
      forall l ensures l in sorted <==> l in initials {
        assert l in sorted <==> l in multiset(sorted);
        assert l in initials <==> l in multiset(initials);
      }
    }
    assert forall l :: l in initials <==> exists e :: e in es && l == upper(Initial(e.name)) by {
      forall l ensures l in initials <==> exists e :: e in es && l == upper(Initial(e.name)) {
        if l in initials {
          var i :| 0 <= i < |initials| && initials[i] == l;
          assert es[i] in es;
        }
        if exists e :: e in es && l == upper(Initial(e.name)) {
          var e :| e in es && l == upper(Initial(e.name));
          var i :| 0 <= i < |es| && es[i] == e;
          assert initials[i] == l;
        }
      }
    }
    Uniq(sorted)
  }

  /** The index depends on the records' names alone: two lists carrying the
      same names in the same order give the same letters, so rebuilding the
      index for an unchanged list reproduces it. */
  lemma LettersDependOnNamesOnly(le: (string, string) -> bool, upper: string -> string,
                                 a: seq<Entry>, b: seq<Entry>)
    requires TotalPreorder(le)
    requires |a| == |b|
    requires forall i :: 0 <= i < |a| ==> a[i].name == b[i].name
    ensures GetLetters(le, upper, a) == GetLetters(le, upper, b)
  {
    assert Initials(upper, a) == Initials(upper, b);
  }
}

=== FILE: lookups.dfy ===
/** Display-name resolution and the single-record lookups
    `getCountryNameAsync`, `getCountryCallingCodeAsync` and
    `getCountryCurrencyAsync`. All three read the emoji table (their
    `loadDataAsync` call passes no flag type). */
module Lookups {
  import opened Wrappers
  import opened Dataset

  /** JavaScript property access `names[key]`: `undefined` when absent. */
  function Get(names: map<string, string>, key: string): (r: Option<string>)
    ensures r.Some? <==> key in names
    ensures r.Some? ==> r.value == names[key]
  {
    if key in names then Some(names[key]) else None
  }

  /** JavaScript truthiness of a possibly undefined string. */
  predicate Truthy(v: Option<string>) {
    v.Some? && v.value != ""
  }

  /** `name[translation] || name['common']`, the resolution the list
      pipeline attaches to each record. */
  function ResolveName(names: map<string, string>, translation: string): (r: string)
    requires "common" in names
    ensures r in names.Values
    ensures Truthy(Get(names, translation)) ==> r == names[translation]
    ensures !Truthy(Get(names, translation)) ==> r == names["common"]
    ensures r == "" ==> names["common"] == ""
  {
    var v := Get(names, translation);
    if Truthy(v) then v.value else names["common"]
  }

  /** The emoji table as the lookups see it after loading through the cache. */
  function EmojiTable(c: Cache, bundled: Table): (t: Table)
    ensures t == (if c.emoji.Some? then c.emoji.value else bundled)
  {
    LoadEmoji(c, bundled).cache.emoji.value
  }

  /** `getCountryNameAsync(countryCode, translation)`. A raw name is an
      object and so always truthy, which makes the `['common']` branch of the
      conditional dead: the result is `name[translation]` as is, with no
      fallback. An unknown code makes `countries[countryCode].name` throw. */
  function CountryName(c: Cache, bundled: Table, code: Code, translation: string)
    : (r: Answer<Option<string>>)
    ensures r.cache == LoadEmoji(c, bundled).cache
    ensures var t := EmojiTable(c, bundled);
            && (r.result.Err? <==> code !in t)
            && (r.result.Err? ==> r.result.error == UnknownCountryCode)
            && (r.result.Ok? ==>
                  && (r.result.value.Some? <==> translation in t[code].name)
                  && (r.result.value.Some? ==> r.result.value.value == t[code].name[translation]))
  {
    var l := LoadEmoji(c, bundled);
    var t := l.cache.emoji.value;
    if code !in t then Answer(l.cache, Err(UnknownCountryCode))
    else Answer(l.cache, Ok(Get(t[code].name, translation)))
  }

  /** `getCountryCallingCodeAsync(countryCode)`: the first calling code,
      `undefined` when the record lists none. */
  function CountryCallingCode(c: Cache, bundled: Table, code: Code): (r: Answer<Option<string>>)
    ensures r.cache == LoadEmoji(c, bundled).cache
    ensures var t := EmojiTable(c, bundled);
            && (r.result.Err? <==> code !in t)
            && (r.result.Err? ==> r.result.error == UnknownCountryCode)
            && (r.result.Ok? ==>
                  && (r.result.value.Some? <==> |t[code].callingCode| > 0)
                  && (r.result.value.Some? ==> r.result.value.value == t[code].callingCode[0]))
  {
    var l := LoadEmoji(c, bundled);
    var t := l.cache.emoji.value;
    if code !in t then Answer(l.cache, Err(UnknownCountryCode))
    else Answer(l.cache, Ok(First(t[code].callingCode)))
  }

  /** `getCountryCurrencyAsync(countryCode)`: the first currency code,
      `undefined` when the record lists none. */
  function CountryCurrency(c: Cache, bundled: Table, code: Code): (r: Answer<Option<string>>)
    ensures r.cache == LoadEmoji(c, bundled).cache
    ensures var t := EmojiTable(c, bundled);
            && (r.result.Err? <==> code !in t)
            && (r.result.Err? ==> r.result.error == UnknownCountryCode)
            && (r.result.Ok? ==>
                  && (r.result.value.Some? <==> |t[code].currency| > 0)
                  && (r.result.value.Some? ==> r.result.value.value == t[code].currency[0]))
  {
    var l := LoadEmoji(c, bundled);
    var t := l.cache.emoji.value;
    if code !in t then Answer(l.cache, Err(UnknownCountryCode))
    else Answer(l.cache, Ok(First(t[code].currency)))
  }

  /** The single-record name lookup does not fall back to "common": for a
      translation the record lacks it answers `undefined`, where the list
      pipeline's resolution answers the "common" name. */
  lemma NameLookupHasNoFallback(c: Cache, bundled: Table, code: Code, translation: string)
    requires code in EmojiTable(c, bundled)
    requires "common" in EmojiTable(c, bundled)[code].name
    requires translation !in EmojiTable(c, bundled)[code].name
    ensures CountryName(c, bundled, code, translation).result == Ok(None)
    ensures ResolveName(EmojiTable(c, bundled)[code].name, translation)
         == EmojiTable(c, bundled)[code].name["common"]
  {
  }

  /** The name lookup with the fallback the list pipeline applies:
      `name[translation] || name['common']`. */
  function CountryNameWithFallback(c: Cache, bundled: Table, code: Code, translation: string)
    : (r: Answer<string>)
    requires CacheWellFormed(c) && WellFormed(bundled)
    ensures r.cache == LoadEmoji(c, bundled).cache
    ensures var t := EmojiTable(c, bundled);
            && (r.result.Err? <==> code !in t)
            && (r.result.Err? ==> r.result.error == UnknownCountryCode)
            && (r.result.Ok? ==> r.result.value in t[code].name.Values)
            && (r.result.Ok? && translation !in t[code].name ==>
                  r.result.value == t[code].name["common"])
  {
    var l := LoadEmoji(c, bundled);
    var t := l.cache.emoji.value;
    if code !in t then Answer(l.cache, Err(UnknownCountryCode))
    else Answer(l.cache, Ok(ResolveName(t[code].name, translation)))
  }

  /** The corrected lookup never answers `undefined`, and it agrees with the
      lookup as written wherever that one answers a non-empty name. */
  lemma FallbackRefinesLookup(c: Cache, bundled: Table, code: Code, translation: string)
    requires CacheWellFormed(c) && WellFormed(bundled)
    ensures var fixed := CountryNameWithFallback(c, bundled, code, translation).result;
            var asWritten := CountryName(c, bundled, code, translation).result;
            && (fixed.Err? <==> asWritten.Err?)
            && (asWritten.Ok? && Truthy(asWritten.value) ==> fixed == Ok(asWritten.value.value))
            && (asWritten.Ok? && !Truthy(asWritten.value) ==>
                  fixed == Ok(EmojiTable(c, bundled)[code].name["common"]))
  {
  }
}

=== FILE: pipeline.dfy ===
/** The list pipeline `getCountriesAsync`: choose a base order of codes,
    drop codes missing from the table, attach resolved names, filter by
    region, subregion, include list and exclude list, and sort by name
    unless preferred mode is on.

    The natural code order (`CountryCodeList`) is the input `codeList`;
    `localeCompare` is the comparator `le`, with `le(a, b)` standing for
    `a.localeCompare(b) <= 0`. */
module Pipeline {
  import opened Wrappers
  import opened Seqs
  import opened Dataset
  import opened Lookups

  /** A record of the produced list: the raw record with `name` resolved to
      one string and `cca2` set to the code it was built from. */
  datatype Entry = Entry(
    cca2: Code,
    name: string,
    region: Option<string>,
    subregion: Option<string>,
    callingCode: seq<string>,
    currency: seq<string>,
    flag: string)

  /** The optional arguments of `getCountriesAsync`; `None` is an argument
      left `undefined`, and an undefined `withAlphaFilter` is `false`. */
  datatype Options = Options(
    translation: string,
    region: Option<string>,
    subregion: Option<string>,
    countryCodes: Option<seq<Code>>,
    excludeCountries: Option<seq<Code>>,
    preferredCountries: Option<seq<Code>>,
    withAlphaFilter: bool)

  // ---------------------------------------------------------------------
  // Predicates, curried as in the source
  // ---------------------------------------------------------------------

  function IsCountryPresent(raw: Table): Code -> bool {
    (code: Code) => code in raw
  }

  function IsRegion(region: Option<string>): Entry -> bool {
    (e: Entry) => if Truthy(region) then e.region == region else true
  }

  function IsSubregion(subregion: Option<string>): Entry -> bool {
    (e: Entry) => if Truthy(subregion) then e.subregion == subregion else true
  }

  /** Keeps a record when the include list is absent or empty, or names it. */
  function IsIncluded(countryCodes: Option<seq<Code>>): Entry -> bool {
    (e: Entry) => if countryCodes.Some? && |countryCodes.value| > 0 then e.cca2 in countryCodes.value else true
  }

  /** Keeps a record when the exclude list is absent or empty, or omits it. */
  function IsExcluded(excludeCountries: Option<seq<Code>>): Entry -> bool {
    (e: Entry) => if excludeCountries.Some? && |excludeCountries.value| > 0 then e.cca2 !in excludeCountries.value else true
  }

  /** A record passes all four filters. */
  predicate Keep(o: Options, e: Entry) {
    && IsRegion(o.region)(e)
    && IsSubregion(o.subregion)(e)
    && IsIncluded(o.countryCodes)(e)
    && IsExcluded(o.excludeCountries)(e)
  }

  // ---------------------------------------------------------------------
  // The pipeline stages
  // ---------------------------------------------------------------------

  /** The `.map` step: spread the raw record, resolve its name, set `cca2`. */
  function Build(raw: Table, translation: string, code: Code): (e: Entry)
    requires code in raw && "common" in raw[code].name
    ensures e.cca2 == code
    ensures e.name == ResolveName(raw[code].name, translation)
    // every other field is copied from the raw record by the spread
    ensures && e.region == raw[code].region
            && e.subregion == raw[code].subregion
            && e.callingCode == raw[code].callingCode
            && e.currency == raw[code].currency
            && e.flag == raw[code].flag
  {
    var c := raw[code];
    Entry(code, ResolveName(c.name, translation), c.region, c.subregion,
          c.callingCode, c.currency, c.flag)
  }

  function Attach(raw: Table, translation: string, codes: seq<Code>): (r: seq<Entry>)
    requires WellFormed(raw)
    requires forall c :: c in codes ==> c in raw
    ensures |r| == |codes|
    ensures forall i :: 0 <= i < |r| ==> r[i] == Build(raw, translation, codes[i])
  {
    if |codes| == 0 then []
    else [Build(raw, translation, codes[0])] + Attach(raw, translation, codes[1..])
  }

  /** The four `.filter` calls on records, in the source's order. */
  function Refine(o: Options, es: seq<Entry>): seq<Entry> {
    Filter(IsExcluded(o.excludeCountries),
      Filter(IsIncluded(o.countryCodes),
        Filter(IsSubregion(o.subregion),
          Filter(IsRegion(o.region), es))))
  }

  /** `codes.filter(isCountryPresent).map(...).filter(...)x4`. */
  function Chain(raw: Table, o: Options, codes: seq<Code>): seq<Entry>
    requires WellFormed(raw)
  {
    Refine(o, Attach(raw, o.translation, Filter(IsCountryPresent(raw), codes)))
  }

  /** `preferredCountries && !withAlphaFilter`: an empty preferred array is
      truthy, and the alpha filter flag overrides preferred countries. */
  predicate PreferredMode(o: Options) {
    o.preferredCountries.Some? && !o.withAlphaFilter
  }

  function NotPreferred(preferred: seq<Code>): Code -> bool {
    (c: Code) => c !in preferred
  }

  /** `[...preferred, ...codeList.filter(code => !preferred.includes(code))]`. */
  function BaseOrder(preferred: seq<Code>, codeList: seq<Code>): (r: seq<Code>)
    ensures forall c :: c in r <==> c in preferred || c in codeList
  {
    preferred + Filter(NotPreferred(preferred), codeList)
  }

  /** The sort comparator on records: compare resolved names. */
  function ByName(le: (string, string) -> bool): (Entry, Entry) -> bool {
    (a: Entry, b: Entry) => le(a.name, b.name)
  }

  lemma ByNameIsTotalPreorder(le: (string, string) -> bool)
    requires TotalPreorder(le)
    ensures TotalPreorder(ByName(le))
  {
    forall a: Entry, b: Entry ensures ByName(le)(a, b) || ByName(le)(b, a) {
      assert le(a.name, b.name) || le(b.name, a.name);
    }
    forall a: Entry, b: Entry, c: Entry ensures Chains(ByName(le), a, b, c) {
      assert Chains(le, a.name, b.name, c.name);
    }
  }

  /** The list `getCountriesAsync` builds from a loaded table. */
  function Countries(raw: Table, codeList: seq<Code>, o: Options, le: (string, string) -> bool)
    : seq<Entry>
    requires WellFormed(raw)
    requires TotalPreorder(le)
  {
    if PreferredMode(o) then
      Chain(raw, o, BaseOrder(o.preferredCountries.value, codeList))
    else
      ByNameIsTotalPreorder(le);
      Sort(ByName(le), Chain(raw, o, codeList))
  }

  /** `getCountriesAsync(flagType, ...)`: load through the cache, answer
      `[]` for a falsy table, otherwise run the pipeline. */
  function GetCountries(c: Cache, flagType: FlagType, bundled: Table, remote: Response,
                        codeList: seq<Code>, o: Options, le: (string, string) -> bool)
    : (r: Answer<seq<Entry>>)
    requires CacheWellFormed(c) && WellFormed(bundled) && ResponseWellFormed(remote)
    requires TotalPreorder(le)
    ensures var l := LoadData(c, flagType, bundled, remote);
            && r.cache == l.cache
            && (r.result.Err? <==> l.data.Err?)
            && (l.data.Err? ==> r.result == Err(l.data.error))
            && (l.data == Ok(None) ==> r.result == Ok([]))
            && (l.data.Ok? && l.data.value.Some? ==>
                  WellFormed(l.data.value.value) &&
                  r.result == Ok(Countries(l.data.value.value, codeList, o, le)))
  {
    var l := LoadData(c, flagType, bundled, remote);
    LoadKeepsWellFormed(c, flagType, bundled, remote);
    match l.data
    case Err(e) => Answer(l.cache, Err(e))
    case Ok(None) => Answer(l.cache, Ok([]))
    case Ok(Some(raw)) => Answer(l.cache, Ok(Countries(raw, codeList, o, le)))
  }

  // ---------------------------------------------------------------------
  // A one-pass reference definition of the chain
  // ---------------------------------------------------------------------

  /** The records the chain should produce from `codes`: in order, one per
      code that is in the table and whose record passes every filter. */
  function Select(raw: Table, o: Options, codes: seq<Code>): seq<Entry>
    requires WellFormed(raw)
  {
    if |codes| == 0 then []
    else
      var rest := Select(raw, o, codes[1..]);
      if codes[0] in raw && Keep(o, Build(raw, o.translation, codes[0]))
      then [Build(raw, o.translation, codes[0])] + rest
      else rest
  }

  function Codes(es: seq<Entry>): (r: seq<Code>)
    ensures |r| == |es|
    ensures forall i :: 0 <= i < |es| ==> r[i] == es[i].cca2
  {
    if |es| == 0 then [] else [es[0].cca2] + Codes(es[1..])
  }

  lemma {:induction false} RefineAppend(o: Options, a: seq<Entry>, b: seq<Entry>)
    ensures Refine(o, a + b) == Refine(o, a) + Refine(o, b)
  {
    FilterAppend(IsRegion(o.region), a, b);
    var a1, b1 := Filter(IsRegion(o.region), a), Filter(IsRegion(o.region), b);
    FilterAppend(IsSubregion(o.subregion), a1, b1);
    var a2, b2 := Filter(IsSubregion(o.subregion), a1), Filter(IsSubregion(o.subregion), b1);
    FilterAppend(IsIncluded(o.countryCodes), a2, b2);
    var a3, b3 := Filter(IsIncluded(o.countryCodes), a2), Filter(IsIncluded(o.countryCodes), b2);
    FilterAppend(IsExcluded(o.excludeCountries), a3, b3);
  }

  lemma RefineSingleton(o: Options, e: Entry)
    ensures Refine(o, [e]) == if Keep(o, e) then [e] else []
  {
    FilterSingleton(IsRegion(o.region), e);
    FilterSingleton(IsSubregion(o.subregion), e);
    FilterSingleton(IsIncluded(o.countryCodes), e);
    FilterSingleton(IsExcluded(o.excludeCountries), e);
    assert Filter(IsSubregion(o.subregion), []) == [];
    assert Filter(IsIncluded(o.countryCodes), []) == [];
    assert Filter(IsExcluded(o.excludeCountries), []) == [];
  }

  /** The source's chain of `filter`, `map` and four `filter`s computes the
      one-pass reference selection. */
  lemma {:induction false} ChainIsSelect(raw: Table, o: Options, codes: seq<Code>)
    requires WellFormed(raw)
    ensures Chain(raw, o, codes) == Select(raw, o, codes)
    decreases |codes|
  {
    if |codes| > 0 {
      var c, cs := codes[0], codes[1..];
      ChainIsSelect(raw, o, cs);
      var present := Filter(IsCountryPresent(raw), cs);
      assert Filter(IsCountryPresent(raw), codes)
          == (if c in raw then [c] else []) + present;
      if c in raw {
        var e := Build(raw, o.translation, c);
        var named := Attach(raw, o.translation, [c] + present);
        assert named == [e] + Attach(raw, o.translation, present);
        RefineAppend(o, [e], Attach(raw, o.translation, present));
        RefineSingleton(o, e);
      } else {
        assert Filter(IsCountryPresent(raw), codes) == present;
      }
    }
  }

  // ---------------------------------------------------------------------
  // Properties of the reference selection
  // ---------------------------------------------------------------------

  /** Every selected record comes from a listed code present in the table,
      carries that code and its resolved name, and passes every filter. */
  lemma {:induction false} SelectSound(raw: Table, o: Options, codes: seq<Code>, e: Entry)
    requires WellFormed(raw)
    requires e in Select(raw, o, codes)
    ensures e.cca2 in codes && e.cca2 in raw
    ensures e == Build(raw, o.translation, e.cca2)
    ensures Keep(o, e)
    decreases |codes|
  {
    if |codes| > 0 {
      var rest := Select(raw, o, codes[1..]);
      if e in rest {
        SelectSound(raw, o, codes[1..], e);
      }
    }
  }

  /** Every listed code present in the table whose record passes every
      filter is selected: absent codes are the only ones dropped silently. */
  lemma {:induction false} SelectComplete(raw: Table, o: Options, codes: seq<Code>, c: Code)
    requires WellFormed(raw)
    requires c in codes && c in raw
    requires Keep(o, Build(raw, o.translation, c))
    ensures Build(raw, o.translation, c) in Select(raw, o, codes)
    decreases |codes|
  {
    if codes[0] != c {
      SelectComplete(raw, o, codes[1..], c);
    }
  }

  /** The selected codes appear in the order of `codes`. */
  lemma {:induction false} SelectIsSubsequence(raw: Table, o: Options, codes: seq<Code>)
    requires WellFormed(raw)
    ensures IsSubsequence(Codes(Select(raw, o, codes)), codes)
    decreases |codes|
  {
    if |codes| > 0 {
      SelectIsSubsequence(raw, o, codes[1..]);
      var rest := Select(raw, o, codes[1..]);
      var s := Select(raw, o, codes);
      if s != rest {
        assert Codes(s)[0] == codes[0];
        assert Codes(s)[1..] == Codes(rest);
      }
    }
  }

  /** Selection over a concatenation is the concatenation of selections. */
  lemma {:induction false} SelectAppend(raw: Table, o: Options, a: seq<Code>, b: seq<Code>)
    requires WellFormed(raw)
    ensures Select(raw, o, a + b) == Select(raw, o, a) + Select(raw, o, b)
    decreases |a|
  {
    if |a| == 0 {
      assert a + b == b;
    } else {
      assert (a + b)[0] == a[0];
      assert (a + b)[1..] == a[1..] + b;
      SelectAppend(raw, o, a[1..], b);
    }
  }

  // ---------------------------------------------------------------------
  // Properties of getCountriesAsync
  // ---------------------------------------------------------------------

  /** Every produced record: its code is in the table and in the base order,
      it carries the name `name[translation] || name['common']` of the record
      it was built from, and it passes all four filters. */
  lemma CountriesSound(raw: Table, codeList: seq<Code>, o: Options,
                       le: (string, string) -> bool, e: Entry)
    requires WellFormed(raw) && TotalPreorder(le)
    requires e in Countries(raw, codeList, o, le)
    ensures e.cca2 in raw
    ensures e.cca2 in codeList || (PreferredMode(o) && e.cca2 in o.preferredCountries.value)
    ensures e.name == ResolveName(raw[e.cca2].name, o.translation)
    ensures e == Build(raw, o.translation, e.cca2)
    ensures Keep(o, e)
  {
    if PreferredMode(o) {
      var base := BaseOrder(o.preferredCountries.value, codeList);
      ChainIsSelect(raw, o, base);
      SelectSound(raw, o, base, e);
    } else {
      ChainIsSelect(raw, o, codeList);
      ByNameIsTotalPreorder(le);
      assert e in multiset(Sort(ByName(le), Chain(raw, o, codeList)));
      SelectSound(raw, o, codeList, e);
    }
  }

  /** Nothing that should be listed is lost: a code of the base order that
      is in the table and passes every filter yields its record. */
  lemma CountriesComplete(raw: Table, codeList: seq<Code>, o: Options,
                          le: (string, string) -> bool, c: Code)
    requires WellFormed(raw) && TotalPreorder(le)
    requires c in raw && Keep(o, Build(raw, o.translation, c))
    requires c in codeList || (PreferredMode(o) && c in o.preferredCountries.value)
    ensures Build(raw, o.translation, c) in Countries(raw, codeList, o, le)
  {
    if PreferredMode(o) {
      var base := BaseOrder(o.preferredCountries.value, codeList);
      ChainIsSelect(raw, o, base);
      SelectComplete(raw, o, base, c);
    } else {
      ChainIsSelect(raw, o, codeList);
      SelectComplete(raw, o, codeList, c);
      ByNameIsTotalPreorder(le);
      assert Build(raw, o.translation, c) in multiset(Chain(raw, o, codeList));
    }
  }

  /** Preferred mode: no sorting. The list is the selection from the
      preferred codes, in the caller's order, followed by the selection from
      the remaining natural-order codes; its codes are an order-preserving
      subsequence of the base order. */
  lemma PreferredOrder(raw: Table, codeList: seq<Code>, o: Options, le: (string, string) -> bool)
    requires WellFormed(raw) && TotalPreorder(le)
    requires PreferredMode(o)
    ensures var preferred := o.preferredCountries.value;
            var rest := Filter(NotPreferred(preferred), codeList);
            Countries(raw, codeList, o, le) == Select(raw, o, preferred) + Select(raw, o, rest)
    ensures IsSubsequence(Codes(Countries(raw, codeList, o, le)),
                          BaseOrder(o.preferredCountries.value, codeList))
  {
    var preferred := o.preferredCountries.value;
    var rest := Filter(NotPreferred(preferred), codeList);
    var base := BaseOrder(preferred, codeList);
    ChainIsSelect(raw, o, base);
    assert base == preferred + rest;
    SelectAppend(raw, o, preferred, rest);
    SelectIsSubsequence(raw, o, base);
  }

  /** An empty preferred array still selects preferred mode: the list keeps
      the natural code order and is not sorted. */
  lemma EmptyPreferredKeepsNaturalOrder(raw: Table, codeList: seq<Code>, o: Options,
                                        le: (string, string) -> bool)
    requires WellFormed(raw) && TotalPreorder(le)
    requires o.preferredCountries == Some([]) && !o.withAlphaFilter
    ensures Countries(raw, codeList, o, le) == Select(raw, o, codeList)
  {
    FilterKeepsAll(NotPreferred([]), codeList);
    assert BaseOrder([], codeList) == codeList;
    ChainIsSelect(raw, o, codeList);
  }

  /** Outside preferred mode (no preferred list, or the alpha filter set even
      with one): the list is sorted by resolved name, is a permutation of the
      selection from the natural code order, and records with names that
      compare equal keep their natural order (the sort is stable). */
  lemma AlphabeticalOrder(raw: Table, codeList: seq<Code>, o: Options,
                          le: (string, string) -> bool)
    requires WellFormed(raw) && TotalPreorder(le)
    requires !PreferredMode(o)
    ensures Sorted(ByName(le), Countries(raw, codeList, o, le))
    ensures multiset(Countries(raw, codeList, o, le)) == multiset(Select(raw, o, codeList))
    ensures forall k :: Filter(EquivalentTo(ByName(le), k), Countries(raw, codeList, o, le))
                     == Filter(EquivalentTo(ByName(le), k), Select(raw, o, codeList))
  {
    ChainIsSelect(raw, o, codeList);
    ByNameIsTotalPreorder(le);
    forall k ensures Filter(EquivalentTo(ByName(le), k), Countries(raw, codeList, o, le))
                  == Filter(EquivalentTo(ByName(le), k), Select(raw, o, codeList)) {
      SortStable(ByName(le), Chain(raw, o, codeList), k);
    }
  }

  /** Running the alphabetical pipeline's sort again changes nothing. */
  lemma AlphabeticalIsFixedPoint(raw: Table, codeList: seq<Code>, o: Options,
                                 le: (string, string) -> bool)
    requires WellFormed(raw) && TotalPreorder(le)
    requires !PreferredMode(o)
    ensures TotalPreorder(ByName(le))
    ensures Sort(ByName(le), Countries(raw, codeList, o, le)) == Countries(raw, codeList, o, le)
  {
    ByNameIsTotalPreorder(le);
    SortIdempotent(ByName(le), Chain(raw, o, codeList));
  }

  // ---------------------------------------------------------------------
  // The individual filters
  // ---------------------------------------------------------------------

  /** An absent or empty include list keeps every record; a non-empty one
      keeps exactly the records whose code it lists. */
  lemma IncludedFilter(countryCodes: Option<seq<Code>>, es: seq<Entry>)
    ensures countryCodes.None? || countryCodes == Some([]) ==>
              Filter(IsIncluded(countryCodes), es) == es
    ensures countryCodes.Some? && |countryCodes.value| > 0 ==>
              forall e :: e in Filter(IsIncluded(countryCodes), es) <==>
                            e in es && e.cca2 in countryCodes.value
  {
    if countryCodes.None? || countryCodes == Some([]) {
      FilterKeepsAll(IsIncluded(countryCodes), es);
    }
  }

  /** An absent or empty exclude list keeps every record; a non-empty one
      removes exactly the records whose code it lists. */
  lemma ExcludedFilter(excludeCountries: Option<seq<Code>>, es: seq<Entry>)
    ensures excludeCountries.None? || excludeCountries == Some([]) ==>
              Filter(IsExcluded(excludeCountries), es) == es
    ensures excludeCountries.Some? && |excludeCountries.value| > 0 ==>
              forall e :: e in Filter(IsExcluded(excludeCountries), es) <==>
                            e in es && e.cca2 !in excludeCountries.value
  {
    if excludeCountries.None? || excludeCountries == Some([]) {
      FilterKeepsAll(IsExcluded(excludeCountries), es);
    }
  }

  /** An absent region or subregion imposes no restriction; a given one
      keeps exactly the records classified under it. */
  lemma RegionFilters(region: Option<string>, subregion: Option<string>, es: seq<Entry>)
    ensures !Truthy(region) ==> Filter(IsRegion(region), es) == es
    ensures !Truthy(subregion) ==> Filter(IsSubregion(subregion), es) == es
    ensures Truthy(region) ==>
              forall e :: e in Filter(IsRegion(region), es) <==> e in es && e.region == region
    ensures Truthy(subregion) ==>
              forall e :: e in Filter(IsSubregion(subregion), es) <==> e in es && e.subregion == subregion
  {
    if !Truthy(region) {
      FilterKeepsAll(IsRegion(region), es);
    }
    if !Truthy(subregion) {
      FilterKeepsAll(IsSubregion(subregion), es);
    }
  }
}

=== FILE: scenarios.dfy ===
/** Worked examples on a two-country table, with a comparison of initials
    standing in for `localeCompare`. */
module Scenarios {
  import opened Wrappers
  import opened Seqs
  import opened Dataset
  import opened Lookups
  import opened Pipeline
  import opened Search

  /** Orders strings by their first character only (the empty string
      first): a total preorder, and enough to order the sample's names. */
  predicate InitialLe(a: string, b: string) {
    |a| == 0 || (|b| > 0 && a[0] <= b[0])
  }

  lemma InitialLeIsTotalPreorder()
    ensures TotalPreorder(InitialLe)
  {
  }

  const France := Country(map["common" := "France", "fra" := "France"],
                          Some("Europe"), Some("Western Europe"), ["33"], ["EUR"], "FR-flag")
  const UnitedStates := Country(map["common" := "United States", "fra" := ""],
                                Some("Americas"), Some("North America"), ["1"], ["USD"], "US-flag")
  const Sample: Table := map["FR" := France, "US" := UnitedStates]
  const NaturalOrder: seq<Code> := ["FR", "US"]
  const Defaults := Options("common", None, None, None, None, None, false)

  /** The records the pipeline builds from the sample, in either translation. */
  const Fr := Entry("FR", "France", Some("Europe"), Some("Western Europe"), ["33"], ["EUR"], "FR-flag")
  const Us := Entry("US", "United States", Some("Americas"), Some("North America"), ["1"], ["USD"], "US-flag")

  lemma SampleRecords(translation: string)
    requires translation == "common" || translation == "fra"
    ensures WellFormed(Sample)
    ensures Build(Sample, translation, "FR") == Fr
    ensures Build(Sample, translation, "US") == Us
  {
  }

  lemma SelectSample(o: Options)
    requires o.translation == "common" || o.translation == "fra"
    ensures WellFormed(Sample)
    ensures Select(Sample, o, ["FR"]) == if Keep(o, Fr) then [Fr] else []
    ensures Select(Sample, o, ["US"]) == if Keep(o, Us) then [Us] else []
  {
    SampleRecords(o.translation);
    assert ["FR"][1..] == [] && ["US"][1..] == [];
  }

  lemma SelectPair(o: Options, a: Code, b: Code)
    requires WellFormed(Sample)
    ensures Select(Sample, o, [a, b]) == Select(Sample, o, [a]) + Select(Sample, o, [b])
  {
    SelectAppend(Sample, o, [a], [b]);
    assert [a] + [b] == [a, b];
  }

  /** The comparison on names orders France before the United States. */
  lemma SortSample()
    ensures TotalPreorder(InitialLe) && TotalPreorder(ByName(InitialLe))
    ensures Sort(ByName(InitialLe), [Fr, Us]) == [Fr, Us]
    ensures Sort(ByName(InitialLe), [Us, Fr]) == [Fr, Us]
    ensures Sort(ByName(InitialLe), [Fr]) == [Fr]
  {
    InitialLeIsTotalPreorder();
    ByNameIsTotalPreorder(InitialLe);
    var le := ByName(InitialLe);
    assert le(Fr, Us) && !le(Us, Fr);
    assert [Fr][1..] == [] && [Us][1..] == [];
    assert Sort(le, [Us]) == [Us];
    assert Sort(le, [Fr]) == [Fr];
    assert [Us, Fr][1..] == [Fr] && [Fr, Us][1..] == [Us];
    assert Insert(le, Us, [Fr]) == [Fr] + Insert(le, Us, []);
  }

  /** Region "Europe" keeps France only. */
  lemma RegionExample()
    ensures WellFormed(Sample) && TotalPreorder(InitialLe)
    ensures Countries(Sample, NaturalOrder, Defaults.(region := Some("Europe")), InitialLe) == [Fr]
  {
    var o := Defaults.(region := Some("Europe"));
    RegionSelection(o);
    ChainIsSelect(Sample, o, NaturalOrder);
    SortSample();
    assert !PreferredMode(o);
    assert Chain(Sample, o, NaturalOrder) == [Fr];
    assert Countries(Sample, NaturalOrder, o, InitialLe) == Sort(ByName(InitialLe), [Fr]);
  }

  lemma RegionSelection(o: Options)
    requires o == Defaults.(region := Some("Europe"))
    ensures WellFormed(Sample)
    ensures Select(Sample, o, NaturalOrder) == [Fr]
  {
    SelectSample(o);
    SelectPair(o, "FR", "US");
    assert Keep(o, Fr) && !Keep(o, Us);
  }

  /** Preferred ["US"] puts the United States first, unsorted. */
  lemma PreferredExample()
    ensures WellFormed(Sample) && TotalPreorder(InitialLe)
    ensures Countries(Sample, NaturalOrder, Defaults.(preferredCountries := Some(["US"])), InitialLe)
         == [Us, Fr]
  {
    var o := Defaults.(preferredCountries := Some(["US"]));
    InitialLeIsTotalPreorder();
    PreferredSelection(o);
    PreferredBase();
    ChainIsSelect(Sample, o, ["US", "FR"]);
    assert PreferredMode(o);
  }

  lemma PreferredSelection(o: Options)
    requires o == Defaults.(preferredCountries := Some(["US"]))
    ensures WellFormed(Sample)
    ensures Select(Sample, o, ["US", "FR"]) == [Us, Fr]
  {
    SelectSample(o);
    assert Keep(o, Fr) && Keep(o, Us);
    SelectPair(o, "US", "FR");
  }

  lemma PreferredBase()
    ensures BaseOrder(["US"], NaturalOrder) == ["US", "FR"]
  {
    assert NaturalOrder[1..] == ["US"] && ["US"][1..] == [];
    assert Filter(NotPreferred(["US"]), ["US"]) == [];
    assert Filter(NotPreferred(["US"]), NaturalOrder) == ["FR"];
  }

  /** With the alpha filter set, the same preferred list is ignored for
      ordering and the names come out sorted. */
  lemma AlphaFilterBeatsPreferredExample()
    ensures WellFormed(Sample) && TotalPreorder(InitialLe)
    ensures Countries(Sample, ["US", "FR"],
                      Defaults.(preferredCountries := Some(["US"]), withAlphaFilter := true),
                      InitialLe)
         == [Fr, Us]
  {
    var o := Defaults.(preferredCountries := Some(["US"]), withAlphaFilter := true);
    SelectSample(o);
    SelectPair(o, "US", "FR");
    assert Keep(o, Fr) && Keep(o, Us);
    ChainIsSelect(Sample, o, ["US", "FR"]);
    SortSample();
  }

  /** A translation whose value is empty falls back to "common" in the list. */
  lemma TranslationFallbackExample()
    ensures WellFormed(Sample) && TotalPreorder(InitialLe)
    ensures Countries(Sample, NaturalOrder, Defaults.(translation := "fra"), InitialLe) == [Fr, Us]
  {
    var o := Defaults.(translation := "fra");
    SelectSample(o);
    SelectPair(o, "FR", "US");
    assert Keep(o, Fr) && Keep(o, Us);
    ChainIsSelect(Sample, o, NaturalOrder);
    SortSample();
  }

  /** The single-record lookup answers the empty "fra" name as stored, and
      `undefined` for a translation the record lacks. */
  lemma LookupWithoutFallbackExample()
    ensures CountryName(Cache(Some(Sample), None), Sample, "US", "fra").result == Ok(Some(""))
    ensures CountryName(Cache(Some(Sample), None), Sample, "US", "deu").result == Ok(None)
  {
  }

  /** Searching with an empty box returns the list; an empty list stays
      empty whatever is typed. */
  lemma SearchExample(fuzzy: (string, seq<Entry>) -> seq<Entry>)
    ensures Search.Search("", [Fr, Us], fuzzy) == [Fr, Us]
    ensures Search.Search("fra", [], fuzzy) == []
  {
  }
}

=== FILE: search.dfy ===
/** `search(filter, data)`: the search box over a produced list. The Fuse.js
    query is the input `fuzzy`: `fuzzy(filter, collection)` stands for
    searching an index whose collection is `collection` (keys name, cca2 and
    callingCode, threshold 0.3) and unwrapping the matched items. */
module Search {
  import opened Pipeline

  function Search(filter: string, data: seq<Entry>,
                  fuzzy: (string, seq<Entry>) -> seq<Entry>): (r: seq<Entry>)
    // an empty list answers [] whatever the filter
    ensures |data| == 0 ==> r == []
    // an empty filter answers the list unchanged
    ensures filter == "" ==> r == data
    // otherwise the query runs against the list just given, never an older one
    ensures |data| > 0 && filter != "" ==> r == fuzzy(filter, data)
  {
    if |data| == 0 then []
    else if filter != "" then fuzzy(filter, data)
    else data
  }
}

=== FILE: seqs.dfy ===
/** Sequence operations the country service borrows from JavaScript's Array:
    `filter`, a stable comparator `sort`, and `Array.from(new Set(arr))`.
    The comparator is abstract: `le(a, b)` stands for `compare(a, b) <= 0`. */
module Seqs {

  /** The comparator is consistent: total and transitive (a total preorder).
      Two distinct values may compare equal. */
  ghost predicate TotalPreorder<T(!new)>(le: (T, T) -> bool) {
    && (forall a, b :: le(a, b) || le(b, a))
    && (forall a, b, c :: Chains(le, a, b, c))
  }

  /** One instance of transitivity. Kept as a named predicate so that the
      prover only chains comparisons where a proof asks for it. */
  ghost predicate Chains<T>(le: (T, T) -> bool, a: T, b: T, c: T) {
    le(a, b) && le(b, c) ==> le(a, c)
  }

  predicate Sorted<T>(le: (T, T) -> bool, s: seq<T>) {
    forall i, j :: 0 <= i < j < |s| ==> le(s[i], s[j])
  }

  predicate NoDuplicates<T(==)>(s: seq<T>) {
    forall i, j :: 0 <= i < j < |s| ==> s[i] != s[j]
  }

  /** `a` is an order-preserving subsequence of `b`. */
  predicate IsSubsequence<T(==)>(a: seq<T>, b: seq<T>)
    decreases |b|
  {
    || |a| == 0
    || (&& |b| > 0
        && ((a[0] == b[0] && IsSubsequence(a[1..], b[1..])) || IsSubsequence(a, b[1..])))
  }

  /** `Array.prototype.filter`: keeps, in order, the elements satisfying `p`. */
  function Filter<T(!new)>(p: T -> bool, s: seq<T>): (r: seq<T>)
    ensures |r| <= |s|
    ensures forall x :: x in r <==> x in s && p(x)
  {
    if |s| == 0 then []
    else
      assert s == [s[0]] + s[1..];
      (if p(s[0]) then [s[0]] else []) + Filter(p, s[1..])
  }

  lemma FilterSingleton<T(!new)>(p: T -> bool, x: T)
    ensures Filter(p, [x]) == if p(x) then [x] else []
  {
    assert [x][1..] == [];
  }

  lemma {:induction false} FilterAppend<T(!new)>(p: T -> bool, a: seq<T>, b: seq<T>)
    ensures Filter(p, a + b) == Filter(p, a) + Filter(p, b)
    decreases |a|
  {
    if |a| == 0 {
      assert a + b == b;
    } else {
      assert (a + b)[0] == a[0];
      assert (a + b)[1..] == a[1..] + b;
      FilterAppend(p, a[1..], b);
    }
  }

  /** A predicate every element satisfies filters nothing out. */
  lemma {:induction false} FilterKeepsAll<T(!new)>(p: T -> bool, s: seq<T>)
    requires forall x :: x in s ==> p(x)
    ensures Filter(p, s) == s
    decreases |s|
  {
    if |s| > 0 {
      assert s[0] in s;
      assert forall x :: x in s[1..] ==> x in s;
      FilterKeepsAll(p, s[1..]);
      assert [s[0]] + s[1..] == s;
    }
  }

  lemma {:induction false} FilterIsSubsequence<T(!new)>(p: T -> bool, s: seq<T>)
    ensures IsSubsequence(Filter(p, s), s)
    decreases |s|
  {
    if |s| > 0 {
      FilterIsSubsequence(p, s[1..]);
      var r := Filter(p, s);
      if p(s[0]) {
        assert r[0] == s[0] && r[1..] == Filter(p, s[1..]);
      } else {
        assert r == Filter(p, s[1..]);
      }
    }
  }

  // ---------------------------------------------------------------------
  // Stable sort
  // ---------------------------------------------------------------------

  /** Places `x` in front of the first element it does not exceed, so `x`
      precedes every element of `s` that compares equal to it. */
  function Insert<T(!new)>(le: (T, T) -> bool, x: T, s: seq<T>): (r: seq<T>)
    ensures multiset(r) == multiset(s) + multiset{x}
    ensures |r| == |s| + 1
  {
    if |s| == 0 then [x]
    else if le(x, s[0]) then [x] + s
    else
      assert s == [s[0]] + s[1..];
      [s[0]] + Insert(le, x, s[1..])
  }

  /** A sorted sequence stays sorted when an element no greater than all of
      its elements goes in front. */
  lemma SortedCons<T>(le: (T, T) -> bool, y: T, t: seq<T>)
    requires Sorted(le, t)
    requires forall z :: z in t ==> le(y, z)
    ensures Sorted(le, [y] + t)
  {
    forall i, j | 0 <= i < j < |[y] + t|
      ensures le(([y] + t)[i], ([y] + t)[j])
    {
      assert ([y] + t)[j] == t[j - 1];
      if i > 0 {
        assert ([y] + t)[i] == t[i - 1];
      }
    }
  }

  lemma {:induction false} InsertSorted<T(!new)>(le: (T, T) -> bool, x: T, s: seq<T>)
    requires TotalPreorder(le)
    requires Sorted(le, s)
    ensures Sorted(le, Insert(le, x, s))
    decreases |s|
  {
    if |s| == 0 {
    } else if le(x, s[0]) {
      forall z | z in s ensures le(x, z) {
        var k :| 0 <= k < |s| && s[k] == z;
        assert Chains(le, x, s[0], s[k]);
      }
      SortedCons(le, x, s);
    } else {
      var rest := Insert(le, x, s[1..]);
      assert Sorted(le, s[1..]);
      InsertSorted(le, x, s[1..]);
      forall z | z in rest ensures le(s[0], z) {
        assert z in multiset(rest);
        if z != x {
          assert z in multiset(s[1..]);
          var k :| 0 <= k < |s[1..]| && s[1..][k] == z;
          assert s[k + 1] == z;
        }
      }
      SortedCons(le, s[0], rest);
    }
  }

  /** Stable insertion sort: the model of `Array.prototype.sort(compare)`
      for a consistent comparator. */
  function Sort<T(!new)>(le: (T, T) -> bool, s: seq<T>): (r: seq<T>)
    requires TotalPreorder(le)
    ensures Sorted(le, r)
    ensures multiset(r) == multiset(s)
    ensures |r| == |s|
  {
    if |s| == 0 then []
    else
      assert s == [s[0]] + s[1..];
      InsertSorted(le, s[0], Sort(le, s[1..]));
      Insert(le, s[0], Sort(le, s[1..]))
  }

  /** Sorting an already sorted sequence changes nothing; in particular
      sorting is idempotent. */
  lemma {:induction false} SortOfSorted<T(!new)>(le: (T, T) -> bool, s: seq<T>)
    requires TotalPreorder(le)
    requires Sorted(le, s)
    ensures Sort(le, s) == s
    decreases |s|
  {
    if |s| > 0 {
      assert Sorted(le, s[1..]);
      SortOfSorted(le, s[1..]);
      if |s| > 1 {
        assert le(s[0], s[1..][0]);
      }
      assert [s[0]] + s[1..] == s;
    }
  }

  /** Sorting twice is sorting once. */
  lemma SortIdempotent<T(!new)>(le: (T, T) -> bool, s: seq<T>)
    requires TotalPreorder(le)
    ensures Sort(le, Sort(le, s)) == Sort(le, s)
  {
    SortOfSorted(le, Sort(le, s));
  }

  /** `a` and `b` compare equal under the comparator. */
  predicate Equivalent<T>(le: (T, T) -> bool, a: T, b: T) {
    le(a, b) && le(b, a)
  }

  function EquivalentTo<T>(le: (T, T) -> bool, k: T): T -> bool {
    x => Equivalent(le, x, k)
  }

  lemma {:induction false} InsertStable<T(!new)>(le: (T, T) -> bool, x: T, s: seq<T>, k: T)
    requires TotalPreorder(le)
    ensures Filter(EquivalentTo(le, k), Insert(le, x, s))
         == Filter(EquivalentTo(le, k), [x] + s)
    decreases |s|
  {
    var p := EquivalentTo(le, k);
    if |s| > 0 && !le(x, s[0]) {
      var rest := Insert(le, x, s[1..]);
      assert Insert(le, x, s) == [s[0]] + rest;
      InsertStable(le, x, s[1..], k);
      NotBothEquivalent(le, x, s[0], k);
      assert s == [s[0]] + s[1..];
      InsertStableStep(p, x, s[0], s[1..], rest, s, Insert(le, x, s));
    }
  }

  /** Values on either side of a strict comparison are not both equivalent to `k`. */
  lemma NotBothEquivalent<T(!new)>(le: (T, T) -> bool, x: T, y: T, k: T)
    requires TotalPreorder(le)
    requires !le(x, y)
    ensures !(EquivalentTo(le, k)(x) && EquivalentTo(le, k)(y))
  {
    assert Chains(le, x, k, y);
  }

  /** The inductive step of InsertStable, stated without the comparator. */
  lemma InsertStableStep<T(!new)>(p: T -> bool, x: T, y: T, tail: seq<T>, rest: seq<T>,
                                   s: seq<T>, ins: seq<T>)
    requires s == [y] + tail && ins == [y] + rest
    requires Filter(p, rest) == Filter(p, [x] + tail)
    requires !(p(x) && p(y))
    ensures Filter(p, ins) == Filter(p, [x] + s)
  {
    FilterSingleton(p, x);
    FilterSingleton(p, y);
    calc {
      Filter(p, [y] + rest);
      { FilterAppend(p, [y], rest); }
      Filter(p, [y]) + Filter(p, rest);
      { FilterAppend(p, [x], tail); }
      Filter(p, [y]) + (Filter(p, [x]) + Filter(p, tail));
      { SwapDisjoint(Filter(p, [y]), Filter(p, [x]), Filter(p, tail)); }
      Filter(p, [x]) + (Filter(p, [y]) + Filter(p, tail));
      { FilterAppend(p, [y], tail); }
      Filter(p, [x]) + Filter(p, [y] + tail);
      { FilterAppend(p, [x], [y] + tail); }
      Filter(p, [x] + ([y] + tail));
    }
  }

  /** Two blocks of which at least one is empty can be swapped. */
  lemma SwapDisjoint<T>(a: seq<T>, b: seq<T>, c: seq<T>)
    requires a == [] || b == []
    ensures a + (b + c) == b + (a + c)
  {
    if a == [] {
      assert a + (b + c) == b + c && a + c == c;
    } else {
      assert b + c == c && b + (a + c) == a + c;
    }
  }

  /** Stability: for every key, the elements comparing equal to it appear in
      the output in the same order as in the input. */
  lemma {:induction false} SortStable<T(!new)>(le: (T, T) -> bool, s: seq<T>, k: T)
    requires TotalPreorder(le)
    ensures Filter(EquivalentTo(le, k), Sort(le, s)) == Filter(EquivalentTo(le, k), s)
    decreases |s|
  {
    if |s| > 0 {
      var p := EquivalentTo(le, k);
      SortStable(le, s[1..], k);
      InsertStable(le, s[0], Sort(le, s[1..]), k);
      FilterAppend(p, [s[0]], Sort(le, s[1..]));
      FilterAppend(p, [s[0]], s[1..]);
      assert s == [s[0]] + s[1..];
    }
  }

  // ---------------------------------------------------------------------
  // Deduplication
  // ---------------------------------------------------------------------

  /** `Array.from(new Set(s))`: the first occurrence of each value, in order
      of first insertion. */
  function Uniq<T(==,!new)>(s: seq<T>): (r: seq<T>)
    ensures NoDuplicates(r)
    ensures forall x :: x in r <==> x in s
    ensures |r| <= |s|
  {
    if |s| == 0 then []
    else
      var u := Uniq(s[..|s| - 1]);
      var x := s[|s| - 1];
      assert s == s[..|s| - 1] + [x];
      if x in u then u else u + [x]
  }

  /** Deduplicating a sorted sequence keeps it sorted. */
  lemma {:induction false} UniqSorted<T(!new)>(le: (T, T) -> bool, s: seq<T>)
    requires Sorted(le, s)
    ensures Sorted(le, Uniq(s))
    decreases |s|
  {
    if |s| > 0 {
      var init := s[..|s| - 1];
      var x := s[|s| - 1];
      assert Sorted(le, init);
      UniqSorted(le, init);
      var u := Uniq(init);
      if x !in u {
        forall i, j | 0 <= i < j < |u + [x]|
          ensures le((u + [x])[i], (u + [x])[j])
        {
          if j == |u| {
            assert u[i] in init;
            var k :| 0 <= k < |init| && init[k] == u[i];
            assert s[k] == u[i];
          }
        }
      }
    }
  }

  /** `a` occurs in `s` before any occurrence of `b`. */
  predicate Before<T(==)>(s: seq<T>, a: T, b: T) {
    exists k :: 0 <= k < |s| && s[k] == a && b !in s[..k]
  }

  /** `Array.from(new Set(s))` lists each value at its first occurrence:
      of two values it keeps, the earlier one first occurs before the
      later one appears at all. */
  lemma {:induction false} UniqFirstOccurrence<T(!new)>(s: seq<T>)
    ensures forall i, j :: 0 <= i < j < |Uniq(s)| ==> Before(s, Uniq(s)[i], Uniq(s)[j])
    decreases |s|
  {
    if |s| > 0 {
      var init := s[..|s| - 1];
      var x := s[|s| - 1];
      UniqFirstOccurrence(init);
      var u := Uniq(init);
      var r := Uniq(s);
      forall i, j | 0 <= i < j < |r| ensures Before(s, r[i], r[j]) {
        if j < |u| {
          assert r[i] == u[i] && r[j] == u[j];
          assert Before(init, u[i], u[j]);
          var k :| 0 <= k < |init| && init[k] == u[i] && u[j] !in init[..k];
          assert s[k] == init[k] && s[..k] == init[..k];
        } else {
          assert r == u + [x] && x !in u;
          assert u[i] in init;
          var k :| 0 <= k < |init| && init[k] == u[i];
          assert s[..k] == init[..k];
          assert forall y :: y in init[..k] ==> y in init;
          assert s[k] == r[i] && r[j] == x;
        }
      }
    }
  }

  /** On a list without repeats, `Array.from(new Set(s))` changes nothing. */
  lemma {:induction false} UniqOfDistinct<T(!new)>(s: seq<T>)
    requires NoDuplicates(s)
    ensures Uniq(s) == s
    decreases |s|
  {
    if |s| > 0 {
      var init := s[..|s| - 1];
      assert NoDuplicates(init);
      UniqOfDistinct(init);
      assert s[|s| - 1] !in init;
      assert s == init + [s[|s| - 1]];
    }
  }
}

=== FILE: wrappers.dfy ===
/** JavaScript's `undefined` and thrown errors, made explicit. */
module Wrappers {

  /** A value that may be `undefined`. */
  datatype Option<+T> = None | Some(value: T)

  /** The outcome of an operation that may throw. */
  datatype Result<+T, +E> = Ok(value: T) | Err(error: E)

  /** The first element of a sequence, as `arr[0]` reads it: `undefined`
      when the sequence is empty. */
  function First<T>(s: seq<T>): (r: Option<T>)
    ensures r.Some? <==> |s| > 0
    ensures r.Some? ==> r.value == s[0] && r.value in s
  {
    if |s| == 0 then None else Some(s[0])
  }
}
